=== FILE: README.md ===
# Evidence dashboard and release cache — a Dafny model

This project models the decision logic of two browser scripts of the
blockchain-evidence front end:

- `DashboardManager` (`public/dashboard-manager.js`): the evidence search
  (`performSearch`, `clearFilters`), the upload check `validateFile`, the
  hex printing of the digest in `generateHash`, the tamper check
  `verifyIntegrity`, and the badge lookup tables `getStatusClass`,
  `getRoleName` and `getRoleClass`.
- `GitHubReleases` (`public/js/github-releases.js`): the constructor's key
  and URL, the one-hour `localStorage` cache (`getCachedData`,
  `setCachedData`) and the cache-first `fetchLatestRelease`.

Every operation is a pure function. The values the dashboard reads from the
DOM become a `Search.Query`. `localStorage` is a `map<string, Cell>`.
`Date.now()` becomes integer parameters. The network's answer is a
`Releases.Reply`. SHA-256 and `TextEncoder` are the two function fields of
`Integrity.Crypto`, so they are uninterpreted. The digest field may fail.

Modules: `Wrappers` (Option/Result), `Text` (`toLowerCase`, `includes`,
`startsWith`, `join`, string `<`), `Hex`, `Decimal`, `Evidence` (the record
and the lookup tables), `Ordering` and `Sorting` (the comparator's order and
an insertion sort), `Search`, `Upload`, `Integrity`, `Releases`, and
`Scenarios` (worked examples).

Notes on what the code does:

- The integrity check hashes the stored data-URL text as it is. It does not
  decode it first, so no decode error exists. A failing `storage.getEvidence`
  call or a failing digest call is reported apart from a mismatch
  (`CheckError`). So is a missing record (`NotFound`).
- A status is any string. The four known statuses matter only to the badge
  colour.
- The end bound of the date window is the instant `endDate + 'T23:59:59'`,
  at whole seconds. A record later in that final second, such as at
  23:59:59.500, falls outside the window.
- The release cache is modelled from `public/js/github-releases.js`. A
  stored `timestamp` that converts to `NaN` (a missing one, a non-numeric
  string, an object) makes the age comparison false, so that entry never
  expires (`Releases.Cell.Untimed`). A timestamp that converts to a number
  (`null` as 0, a boolean, a numeric string, an array such as `[5]`) is
  `Releases.Cell.Stored` with that number and expires like any other.

## Model

| member | source | states |
|---|---|---|
| Search.PerformSearch | public/dashboard-manager.js:195-267 | The result holds each input record exactly as many times as the input does when it matches the form, and no other records. Its sort keys run ascending for "asc" and descending otherwise. |
| Search.Filter | public/dashboard-manager.js:205-238 | The filtered list is a subsequence of the input. Each record appears as many times as in the input if it passes the callback, and not at all otherwise. |
| Search.KeepIffCriteria | public/dashboard-manager.js:205-238 | A record is kept iff every active criterion holds: the term occurs in the search text, the status is equal, the type is equal, and the time is inside the window. |
| Search.SearchSound | public/dashboard-manager.js:205-238 | Every record in the result comes from the input and meets every non-empty criterion. |
| Search.EmptyQueryKeepsAll | public/dashboard-manager.js:205-238 | With empty term, status, type and dates, nothing is dropped, so the result is a permutation of the input. |
| Search.WindowBounds | public/dashboard-manager.js:231-235 | A record is outside the window iff it is strictly before the start or strictly after the end. A record exactly on either bound is kept. |
| Search.TitleHitIsFound | public/dashboard-manager.js:207-216 | A term that occurs in the title, ignoring case, is found by the search. |
| Search.TermCaseInsensitive | public/dashboard-manager.js:196 | Two terms with the same lower-case form give the same result. |
| Search.SearchIdempotent | public/dashboard-manager.js:204-267 | Running the search again on its own result, with the same form, returns that result unchanged. |
| Search.FilterKeepsPassingList | public/dashboard-manager.js:205-238 | A list whose records all pass the callback is returned whole, in order. |
| Search.FilterSameCriteria | public/dashboard-manager.js:205-238 | Two forms whose callbacks agree on every record filter every list the same way. |
| Search.TimestampOrder | public/dashboard-manager.js:241-267 | Sorted by timestamp, the result is oldest first for "asc" and newest first otherwise. This includes the default sort field. |
| Search.TextFieldOrder | public/dashboard-manager.js:244-266 | Sorted by title or type, the lower-cased field never decreases for "asc" and never increases otherwise. |
| Search.KeysOfOneKind | public/dashboard-manager.js:244-260 | For a given sort field, every record yields a value of the same kind, so numbers are never compared with strings. |
| Search.ClearFilters | public/dashboard-manager.js:536-548 | Clearing leaves no active criterion and resets the sort to timestamp, descending. |
| Search.ClearedSearchShowsAllNewestFirst | public/dashboard-manager.js:536-548 | After clearing, every record is shown, newest first. |
| Search.Keep | public/dashboard-manager.js:205-238 | The filter callback, tested criterion by criterion in source order: a non-empty term missing from the search text, a different status or type, or a time outside a given bound drops the record. `Search.KeepIffCriteria` characterises it. |
| Search.Matches | public/dashboard-manager.js:196 | A record matches a form when the filter callback keeps it with the term lower-cased, as the term is read from the input box. |
| Search.SearchText | public/dashboard-manager.js:208-213 | The text searched is the title, description, case id and file name, joined with single spaces and lower-cased, so it contains no capital. |
| Search.SortKey | public/dashboard-manager.js:244-260 | The value a record is sorted by: the lower-cased title or type as a string, the timestamp as a number, and otherwise the raw property (`Search.RawValue`). |
| Search.RawValue | public/dashboard-manager.js:257-259 | `a[sortBy] \|\| ''` for another field: a numeric property as a number, a string property as itself, and any other name as `''`. |
| Search.SortField | public/dashboard-manager.js:201 | An empty sort field stands for "timestamp". |
| Search.Ascending | public/dashboard-manager.js:202 | The order is ascending exactly for "asc". Anything else, including the empty default, sorts descending. |
| Sorting.Sort | public/dashboard-manager.js:241-267 | The sort returns a permutation of its input whose keys run in the requested direction. |
| Sorting.SortSortedIsIdentity | public/dashboard-manager.js:241-267 | An input that is already ordered is returned unchanged. |
| Sorting.Precedes | public/dashboard-manager.js:262-266 | A record may stand before another exactly when the comparator does not return 1 for that pair: for "asc" when its value is not greater, otherwise when it is not less. |
| Sorting.PrecedesTransitive | public/dashboard-manager.js:262-266 | The order the comparator induces is transitive in both directions. |
| Sorting.PrecedesTotal | public/dashboard-manager.js:262-266 | Of any two keys, at least one may stand before the other. |
| Sorting.PrecedesAntisymmetric | public/dashboard-manager.js:262-266 | Two keys that may each stand before the other are equal. |
| Ordering.KeyLess | public/dashboard-manager.js:262-266 | `<` on sort values: numbers by value, strings character by character (`Text.Less`). Putting every number before every string is a choice of the model, not JavaScript's coercion; `Search.KeysOfOneKind` shows the case never arises. |
| Ordering.KeyLessTrichotomous | public/dashboard-manager.js:262-266 | Of two sort values, one is less than the other or they are equal. |
| Text.LessTransitive | public/dashboard-manager.js:262-266 | The string `<` is transitive. |
| Text.LessTrichotomous | public/dashboard-manager.js:262-266 | For any two strings, one is less than the other or they are equal. |
| Text.IncludesIffOccurs | public/dashboard-manager.js:215 | `includes` holds iff the term occurs at some offset of the text. |
| Text.LowerIdempotent | public/dashboard-manager.js:196 | Lower-casing twice gives the same result as once. |
| Text.LowerAppend | public/dashboard-manager.js:208-213 | Lower-casing the joined fields equals joining the lower-cased fields. |
| Text.Lower | public/dashboard-manager.js:196 | `toLowerCase` maps each character and keeps the length. |
| Text.Includes | public/dashboard-manager.js:215 | `includes` as a scan: a match at the front or further along. `Text.IncludesIffOccurs` characterises it. |
| Text.StartsWith | public/dashboard-manager.js:165 | `startsWith`: the prefix is no longer than the string and equals its first characters. |
| Text.Join | public/dashboard-manager.js:213 | `join(sep)`: a single part is returned as it is, and parts are otherwise separated by `sep` (`Text.JoinFour`). |
| Text.Less | public/dashboard-manager.js:262-266 | String `<`: lexicographic by character, with a proper prefix below the longer string. `Text.LessTransitive` and `Text.LessTrichotomous` show it is a strict total order. |
| Upload.ValidateFile | public/dashboard-manager.js:156-171 | A file is accepted iff its size is at most 50·1024·1024 and its type starts with an allowed prefix. A file that is too large is reported as such, whatever its type. A rejected file raises the alert "File size exceeds 50MB limit" when too large and "File type not allowed" otherwise. |
| Upload.SomePrefix | public/dashboard-manager.js:165 | `some(startsWith)` holds iff one of the prefixes starts the type. |
| Upload.SizeBoundary | public/dashboard-manager.js:157-160 | A size of exactly 52428800 bytes is accepted, and 52428801 bytes is too large. |
| Upload.PrefixMatching | public/dashboard-manager.js:158-165 | "application/pdf" passes. "application/json" and the capitalised "IMAGE/PNG" are rejected for their type. |
| Hex.ToBase16 | public/dashboard-manager.js:698 | `toString(16)` prints one digit exactly when the byte is below 16, and two otherwise. The last digit is the low nibble's, and a first of two is the high nibble's. |
| Hex.PaddedHex | public/dashboard-manager.js:698 | `b.toString(16).padStart(2, '0')` is exactly the high-nibble digit followed by the low-nibble digit (`Hex.ByteToHex`). |
| Hex.PadStart2 | public/dashboard-manager.js:698 | `padStart(2, '0')` brings a shorter text to length two by filling in `'0'` in front: the empty text gives `"00"`, one character gets a `'0'` before it, and the text stays its suffix. A text of two or more characters is returned unchanged. |
| Hex.ByteToHex | public/dashboard-manager.js:698 | Every byte prints as exactly two digits. `Hex.PaddedHex` shows these are the source's padded `toString(16)`. |
| Hex.Encode | public/dashboard-manager.js:698 | n bytes print as 2n characters, each from `0-9a-f`. |
| Hex.DecodeEncode | public/dashboard-manager.js:698 | Reading the digits back yields the digest bytes. |
| Hex.EncodeDecode | public/dashboard-manager.js:698 | Any text that reads back as bytes is exactly the printing of those bytes. |
| Hex.EncodeInjective | public/dashboard-manager.js:698 | Different digests print differently. |
| Hex.DigestTextUnique | public/dashboard-manager.js:698 | A text reads back as a digest iff it is that digest's printing. |
| Integrity.Digest | public/dashboard-manager.js:694-696 | The digest of a text is the digest call applied to the text's UTF-8 bytes, or nothing when that call fails. |
| Integrity.GenerateHash | public/dashboard-manager.js:693-699 | The hash fails exactly when the digest call fails. Otherwise it has two lower-case hex digits per digest byte, and it reads back as exactly the digest of the text's UTF-8 bytes. |
| Integrity.VerifyIntegrity | public/dashboard-manager.js:479-502 | The record is intact iff a digest is stored, the digest call succeeds, and the stored text is the printing of the recomputed digest of `file_data \|\| fileData`. A store failure or a failed digest call gives the error report, and a missing record gets its own report. |
| Integrity.OwnDigestVerifies | public/dashboard-manager.js:487-493 | A record checked against the digest of its own payload is reported intact when the digest call succeeds. |
| Integrity.ChangedPayloadIsDetected | public/dashboard-manager.js:487-496 | A payload whose digest differs from the one the stored hash was made from is reported modified. |
| Integrity.UpperCaseDigestFails | public/dashboard-manager.js:492 | A stored digest containing a capital hex letter never matches, because the comparison is case-sensitive. |
| Integrity.DigestFailureIsError | public/dashboard-manager.js:480-501 | When the digest call fails, the check ends in the error alert, whatever digest is stored. |
| Evidence.Either | public/dashboard-manager.js:211-212 | `a \|\| b` on strings yields `a` when it is non-empty and `b` otherwise. It is empty only when both are. |
| Evidence.CaseIdOf | public/dashboard-manager.js:211 | The case id searched is `case_id` when non-empty and `caseId` otherwise. |
| Evidence.FileNameOf | public/dashboard-manager.js:212 | The file name searched is `file_name` when non-empty and `fileName` otherwise. |
| Evidence.FileDataOf | public/dashboard-manager.js:488 | The payload hashed is `file_data` when non-empty and `fileData` otherwise. |
| Evidence.StatusClass | public/dashboard-manager.js:625-631 | The colour is one of five. It is "secondary" exactly for a status outside the four known ones. |
| Evidence.StatusClassesDistinct | public/dashboard-manager.js:625-631 | The four known statuses get four different colours. |
| Evidence.RoleName | public/dashboard-manager.js:608-615 | The name is "Unknown" exactly for a role outside 1..8. |
| Evidence.RoleClass | public/dashboard-manager.js:617-623 | The class is "public" exactly for role 1 and for unknown roles. |
| Evidence.RoleTablesAgree | public/dashboard-manager.js:608-623 | Known roles have pairwise different names and pairwise different classes. |
| Evidence.UnknownRoleIsPublic | public/dashboard-manager.js:608-623 | A role shown as "Unknown" gets the "public" class. |
| Releases.NewClient | public/js/github-releases.js:3-9 | The key is `github_release_` + owner + `_` + repo, and the URL is the API's latest-release URL for the same owner and repo. |
| Releases.CacheKeyInjective | public/js/github-releases.js:7 | For owners without an underscore, as GitHub owner names are, different repositories get different keys. |
| Releases.CacheKeyCollision | public/js/github-releases.js:7 | Without that restriction, ("a_b", "c") and ("a", "b_c") share a key. |
| Releases.SameUrlSameKey | public/js/github-releases.js:6-7 | For owners without a slash, as GitHub owner names are, two clients that fetch the same URL use the same cache entry. With a slash allowed this fails (`Releases.UrlCollision`). |
| Releases.UrlCollision | public/js/github-releases.js:6-7 | Without that restriction, ("a/b", "c") and ("a", "b/c") fetch the same URL but use different cache entries. |
| Releases.Fresh | public/js/github-releases.js:13-19 | An entry is served when it exists, parses, and either is at most `cacheExpiry` old (`Date.now() - timestamp > cacheExpiry` is false) or has a timestamp that converts to `NaN`, for which that comparison is false too. |
| Releases.GetCachedData | public/js/github-releases.js:11-23 | The stored release is returned iff the entry exists, parses with its data, and either has `now - timestamp <= 3600000` or has a timestamp that converts to `NaN`. Otherwise the result is null, never an error. |
| Releases.SetCachedData | public/js/github-releases.js:25-32 | A successful write stores the release with the write time under the key. A failed write leaves the store as it was. No other key changes. |
| Releases.CacheRoundTrip | public/js/github-releases.js:11-28 | A write at t followed by a read at t' returns the data when t' - t <= one hour, and null when it is more. |
| Releases.ExpiryBoundary | public/js/github-releases.js:8-19 | Exactly one hour after the write the entry is still served. One millisecond later it is not. |
| Releases.NoUsableEntry | public/js/github-releases.js:13-22 | A missing or unparseable entry reads as null. |
| Releases.UntimedNeverExpires | public/js/github-releases.js:16-19 | An entry whose timestamp converts to `NaN` is served at every clock reading, and a fetch returns it without a request. |
| Releases.FetchLatestRelease | public/js/github-releases.js:34-66 | A fresh cache is returned without a request. A 404 becomes "No releases found" and any other non-ok status s becomes an API error for s, both leaving the store unchanged. A 2xx reply with a parsed body on a stale cache returns the projected release and writes it to the cache, and a successful network result is always of that kind. |
| Releases.FreshCacheIgnoresNetwork | public/js/github-releases.js:35-36 | With a fresh cache, the outcome is the same whatever the network would have answered. |
| Releases.SecondFetchFromCache | public/js/github-releases.js:35-61 | After a successful network fetch whose write went through, any call within the hour is answered from the cache with the same release. |
| Releases.StatusError | public/js/github-releases.js:41-43 | A non-ok status is "no releases" exactly when it is 404. Every other status becomes an API error that carries it. |
| Releases.IsOk | public/js/github-releases.js:41 | `response.ok` holds exactly for statuses 200 to 299. |
| Releases.Message | public/js/github-releases.js:42-43 | Exactly the two errors the code raises itself have a message of its own: "No releases found" for a 404 response, whatever its body, and "GitHub API error: " followed by the status in decimal for a failed response. The text "No releases found" identifies the first, which is what the page that shows the release tests for. |
| Releases.MessageIdentifiesError | public/js/github-releases.js:42-43 | Different errors give different messages, and the status can be read back from the API-error message. |
| Releases.ProcessRelease | public/js/github-releases.js:48-59 | Every release field is copied from its API field. There are as many assets as in the answer, each mapped field for field (`browser_download_url` becomes `downloadUrl`). |
| Releases.ProcessAssets | public/js/github-releases.js:54-58 | The mapped asset list has the same length as the input and matches it position by position. |
| Decimal.Print | public/js/github-releases.js:43 | A status prints as decimal digits only, at least one, with no leading zero. |
| Decimal.ParsePrint | public/js/github-releases.js:43 | The printed status reads back as the status. |
| Scenarios.StatusScenario | public/dashboard-manager.js:195-267 | Two records, filtered on "approved" and sorted by time ascending, leave only the approved one. |
| Scenarios.TermScenario | public/dashboard-manager.js:195-267 | Searching the same two records for "ALPHA" finds only the record titled "Alpha". |
| Scenarios.DigestScenario | public/dashboard-manager.js:479-496 | "hello" checks out against its own digest. It fails against the digest of "world" when the two digests differ. |

## Left out

- DOM access, HTML templating, alerts and modals are presentation only. This covers `displayEvidence`, `viewEvidence`, `handleFilePreview`, `showAlert`, `updateUI`, `updateStats`, the form show/hide helpers, `showLoading` and `getFileIcon`.
- Authentication, user loading and redirects (`checkAuthentication`, `loadUserData`, `logout`) are left out, as are `loadEvidence`, `handleEvidenceUpload` and `exportData`. These go through the `storage` collaborator, which is not part of this model.
- SHA-256 and `TextEncoder` are uninterpreted function parameters. They are foreign browser calls. The encoder is total on strings, and the digest call may fail.
- `fileToBase64`, `base64ToBlob` and `downloadEvidence` are left out. They depend on `FileReader`, `atob`, `Blob` and object URLs.
- Date-string parsing is left out. `new Date('YYYY-MM-DD')` reads UTC, while `'...T23:59:59'` reads local time. Both bounds and every timestamp enter as integer milliseconds, so a record whose timestamp does not parse (Invalid Date) is not modelled.
- `formatFileSize` in both files uses floating point.
- `highlightSearchTerm` builds a regular expression from user input.
- `debounce` depends on timers.
- `public/js/latest-release.js` (rendering and `formatReleaseNotes`) and `public/config.js` (constants only) are not part of this model.
- The actual `fetch`, JSON decoding and JSON serialisation of the cache are left out. A reply body that does not parse, or lacks `assets`, is the single `BadBody` error, with the browser's message not modelled. Stored entries keep the release value itself, as `JSON.stringify`/`JSON.parse` preserve strings and numbers. A parsed entry that lacks `data` reads as no cache, like an unparseable one, because `undefined` is falsy at line 36 just as `null` is.
- Release fields are strings. A `null` field in the API answer is not modelled.
- Text.LowerChar: lower-cases only ASCII `A`-`Z` and the Latin-1 capitals, not the rest of Unicode's case mapping. The search's case-insensitivity is therefore proved for those letters only.
- Text.Less: compares Unicode code points, whereas JavaScript compares UTF-16 code units. The two differ only for characters outside the Basic Multilingual Plane.
- Sorting.Sort: the comparator never returns 0, so the engine may put records with equal keys in any order. The model computes one such order, keeping equal keys in input order. Its contracts state only what every outcome satisfies: a permutation with ordered keys.
- Sorting.SortSortedIsIdentity: holds of the model's stable order, not of every engine. V8, for one, may reverse a run of equal neighbours, so an already-ordered input with ties need not come back unchanged.
- Search.SearchIdempotent: holds of the model's stable order, for the same reason as `Sorting.SortSortedIsIdentity`.
- Evidence.StatusClass: `classes[status]` looks the status up in an object literal, so a name inherited from `Object.prototype` ("constructor", "toString", "__proto__", …) yields the inherited member rather than "secondary". The model treats every status outside the four known ones as "secondary", so its contract holds only for statuses that are not `Object.prototype` property names.
- Search.RawValue: for a sort field other than title, timestamp or type, only the record properties of `Evidence.Record` are read. Numeric ones compare as numbers, with 0 standing for the `''` a zero becomes. Any other property name reads as `''`.

=== FILE: decimal.dfy ===
/**
  Decimal printing of a non-negative integer, as a JavaScript template
  literal prints an HTTP status code (`${response.status}`).
 */
module Decimal {
  import opened Wrappers

  /** The character of a decimal digit. */
  function DigitChar(d: nat): (c: char)
    requires d < 10
    ensures '0' <= c <= '9' && c as int - '0' as int == d
  {
    (d + '0' as int) as char
  }

  /** The shortest decimal numeral of `n`: no leading zero except for 0 itself. */
  function Print(n: nat): (r: string)
    ensures |r| >= 1
    ensures forall i :: 0 <= i < |r| ==> '0' <= r[i] <= '9'
    ensures |r| > 1 ==> r[0] != '0'
    decreases n
  {
    if n < 10 then [DigitChar(n)] else Print(n / 10) + [DigitChar(n % 10)]
  }

  /** The value of a string of decimal digits; `None` if any character is
      not a digit or the string is empty. */
  function Parse(s: string): (r: Option<nat>)
    decreases |s|
  {
    if s == [] || !('0' <= s[|s| - 1] <= '9') then None
    else if |s| == 1 then Some(s[0] as int - '0' as int)
    else
      match Parse(s[..|s| - 1])
      case Some(v) => Some(10 * v + (s[|s| - 1] as int - '0' as int))
      case None => None
  }

  /** Reading back a printed number gives the number. */
  lemma {:induction false} ParsePrint(n: nat)
    ensures Parse(Print(n)) == Some(n)
    decreases n
  {
    if n >= 10 {
      var s := Print(n);
      assert s[..|s| - 1] == Print(n / 10);
      ParsePrint(n / 10);
    }
  }

  /** Different numbers print differently. */
  lemma PrintInjective(m: nat, n: nat)
    requires Print(m) == Print(n)
    ensures m == n
  {
    ParsePrint(m);
    ParsePrint(n);
  }
}

=== FILE: evidence.dfy ===
/**
  The evidence record as the dashboard reads it from the store, and the
  lookup tables that turn its status and a user's role into labels.

  A property the record may lack is the empty string here: every use the
  dashboard makes of a string property (`join`, `x || ''`, `!==` against a
  non-empty filter) treats `undefined` and `''` alike. The stored digest is
  the exception, since `currentHash === undefined` is false while
  `currentHash === ''` need not be.
 */
module Evidence {
  import opened Wrappers

  /** One evidence record. Records written by different back ends carry some
      properties under a snake_case name instead of (or besides) the
      camelCase one; `legacyCaseId`, `legacyFileName` and `legacyFileData`
      hold `case_id`, `file_name` and `file_data`. */
  datatype Record = Record(
    id: int,
    caseId: string,
    legacyCaseId: string,
    title: string,
    description: string,
    kind: string,            // the `type` property
    status: string,
    fileName: string,
    legacyFileName: string,
    fileSize: int,
    mimeType: string,
    fileData: string,        // the data URL of the payload
    legacyFileData: string,
    hash: Option<string>,
    submittedBy: string,
    timestamp: int           // milliseconds since the epoch
  )

  /** JavaScript `a || b` on strings: `a` unless it is empty. */
  function Either(a: string, b: string): (r: string)
    ensures r == a || r == b
    ensures a != "" ==> r == a
    ensures r == "" ==> a == "" && b == ""
  {
    if a != "" then a else b
  }

  /** `evidence.case_id || evidence.caseId`. */
  function CaseIdOf(e: Record): string {
    Either(e.legacyCaseId, e.caseId)
  }

  /** `evidence.file_name || evidence.fileName`. */
  function FileNameOf(e: Record): string {
    Either(e.legacyFileName, e.fileName)
  }

  /** `evidence.file_data || evidence.fileData`. */
  function FileDataOf(e: Record): string {
    Either(e.legacyFileData, e.fileData)
  }

  /** The statuses the status badge knows. */
  const KnownStatuses: set<string> := {"pending", "approved", "rejected", "under_review"}

  /** The badge colour of a status (`getStatusClass`); a status outside the
      four known ones falls back to "secondary", and the four known ones get
      four different colours, none of them the fallback. */
  function StatusClass(status: string): (r: string)
    ensures r in {"warning", "success", "danger", "info", "secondary"}
    ensures r == "secondary" <==> status !in KnownStatuses
  {
    match status
    case "pending" => "warning"
    case "approved" => "success"
    case "rejected" => "danger"
    case "under_review" => "info"
    case _ => "secondary"
  }

  /** The roles `getRoleName` and `getRoleClass` know are 1 through 8. */
  predicate KnownRole(role: int) {
    1 <= role <= 8
  }

  /** The display name of a role (`getRoleName`); "Unknown" exactly for a
      role outside 1..8. */
  function RoleName(role: int): (r: string)
    ensures r == "Unknown" <==> !KnownRole(role)
  {
    match role
    case 1 => "Public Viewer"
    case 2 => "Investigator"
    case 3 => "Forensic Analyst"
    case 4 => "Legal Professional"
    case 5 => "Court Official"
    case 6 => "Evidence Manager"
    case 7 => "Auditor"
    case 8 => "Administrator"
    case _ => "Unknown"
  }

  /** The badge class of a role (`getRoleClass`); an unknown role gets the
      class of role 1, "public". */
  function RoleClass(role: int): (r: string)
    ensures r == "public" <==> role == 1 || !KnownRole(role)
  {
    match role
    case 1 => "public"
    case 2 => "investigator"
    case 3 => "forensic"
    case 4 => "legal"
    case 5 => "court"
    case 6 => "manager"
    case 7 => "auditor"
    case 8 => "admin"
    case _ => "public"
  }

  /** Each known role has its own name and its own class, and a role shows
      the unknown name only when its class is the public fallback. */
  lemma RoleTablesAgree(a: int, b: int)
    requires KnownRole(a) && KnownRole(b) && a != b
    ensures RoleName(a) != RoleName(b)
    ensures RoleClass(a) != RoleClass(b)
  {
  }

  lemma UnknownRoleIsPublic(role: int)
    ensures RoleName(role) == "Unknown" ==> RoleClass(role) == "public"
  {
  }

  /** Each known status gets its own badge colour. */
  lemma StatusClassesDistinct(a: string, b: string)
    requires a in KnownStatuses && b in KnownStatuses && a != b
    ensures StatusClass(a) != StatusClass(b)
  {
  }
}

=== FILE: hex.dfy ===
/**
  The digest-to-text step of `generateHash`: every byte of the digest is
  printed with `toString(16)`, padded on the left with `'0'` to two
  characters, and the pieces are joined without a separator.
 */
module Hex {
  import opened Wrappers

  /** An element of a `Uint8Array`. */
  newtype byte = x: int | 0 <= x < 256

  /** The digits `Number.prototype.toString(16)` prints, by value. */
  const Digits: string := "0123456789abcdef"

  /** The characters of `Digits`: `0-9` and `a-f`. */
  predicate IsDigit(c: char) {
    '0' <= c <= '9' || 'a' <= c <= 'f'
  }

  /** Every entry of `Digits` is a digit. */
  lemma DigitsAreDigits(v: int)
    requires 0 <= v < 16
    ensures IsDigit(Digits[v])
  {
  }

  /** `b.toString(16)`: one digit below 16, two digits otherwise. */
  function ToBase16(b: byte): (r: string)
    ensures 1 <= |r| <= 2
    ensures |r| == 1 <==> b < 16
    ensures r[|r| - 1] == Digits[b % 16]
    ensures |r| == 2 ==> r[0] == Digits[b / 16]
  {
    if b < 16 then [Digits[b]] else [Digits[b / 16], Digits[b % 16]]
  }

  /** `s.padStart(2, '0')`. */
  function PadStart2(s: string): (r: string)
    ensures |s| <= 2 ==> |r| == 2
    ensures |r| >= |s| && r[|r| - |s|..] == s
    ensures |s| == 0 ==> r == "00"
    ensures |s| == 1 ==> r[0] == '0'
    ensures |s| >= 2 ==> r == s
  {
    if |s| >= 2 then s else seq(2 - |s|, _ => '0') + s
  }

  /** One byte as two lower-case hexadecimal digits, high nibble first.
      `PaddedHex` shows this is what `b.toString(16).padStart(2, '0')`
      prints. */
  function ByteToHex(b: byte): (r: string)
    ensures |r| == 2
  {
    [Digits[b / 16], Digits[b % 16]]
  }

  /** `b.toString(16).padStart(2, '0')` is the high-nibble digit followed by
      the low-nibble digit. */
  lemma PaddedHex(b: byte)
    ensures PadStart2(ToBase16(b)) == ByteToHex(b)
  {
    var t := ToBase16(b);
    if b < 16 {
      assert b / 16 == 0 && b % 16 == b;
      assert PadStart2(t) == ['0', t[0]];
    }
  }

  /** `hashArray.map(b => ...).join('')`. */
  function Encode(bytes: seq<byte>): (r: string)
    ensures |r| == 2 * |bytes|
    ensures forall i :: 0 <= i < |r| ==> IsDigit(r[i])
  {
    if bytes == [] then ""
    else
      var b := bytes[0];
      DigitsAreDigits((b / 16) as int);
      DigitsAreDigits((b % 16) as int);
      ByteToHex(b) + Encode(bytes[1..])
  }

  /** The value of one lower-case hexadecimal digit. */
  function DigitValue(c: char): (r: Option<nat>)
    ensures r.Some? <==> IsDigit(c)
    ensures r.Some? ==> r.value < 16 && Digits[r.value] == c
  {
    if '0' <= c <= '9' then Some(c as int - '0' as int)
    else if 'a' <= c <= 'f' then Some(c as int - 'a' as int + 10)
    else None
  }

  /** The inverse of `Encode`: pairs of digits back to bytes; `None` for
      odd length or a character outside `0-9a-f`. */
  function Decode(s: string): (r: Option<seq<byte>>)
    ensures r.Some? ==> 2 * |r.value| == |s|
    decreases |s|
  {
    if s == [] then Some([])
    else if |s| == 1 then None
    else
      var hi, lo, rest := DigitValue(s[0]), DigitValue(s[1]), Decode(s[2..]);
      if hi.Some? && lo.Some? && rest.Some?
      then Some([(16 * hi.value + lo.value) as byte] + rest.value)
      else None
  }

  /** Reading back a printed digit gives its value. */
  lemma DigitRoundTrip(v: int)
    requires 0 <= v < 16
    ensures DigitValue(Digits[v]) == Some(v)
  {
    var r := DigitValue(Digits[v]);
    assert r.Some?;
    DigitsDistinct(r.value, v);
  }

  /** One step of `Decode`: two digits in front of a decodable rest. */
  lemma DecodeStep(s: string, hi: nat, lo: nat, rest: seq<byte>)
    requires |s| >= 2 && hi < 16 && lo < 16
    requires DigitValue(s[0]) == Some(hi) && DigitValue(s[1]) == Some(lo)
    requires Decode(s[2..]) == Some(rest)
    ensures Decode(s) == Some([(16 * hi + lo) as byte] + rest)
  {
  }

  /** Decoding an encoding gives back the bytes. */
  lemma {:induction false} DecodeEncode(bytes: seq<byte>)
    ensures Decode(Encode(bytes)) == Some(bytes)
  {
    if bytes != [] {
      var b := bytes[0];
      var hi, lo := (b / 16) as int, (b % 16) as int;
      var tail := Encode(bytes[1..]);
      var s := ByteToHex(b) + tail;
      assert s == Encode(bytes);
      HexInFront(b, tail);
      DigitRoundTrip(hi);
      DigitRoundTrip(lo);
      DecodeEncode(bytes[1..]);
      DecodeStep(s, hi, lo, bytes[1..]);
      assert (16 * hi + lo) as byte == b;
      assert [b] + bytes[1..] == bytes;
    }
  }

  /** The two digits of a byte in front of `tail`. */
  lemma HexInFront(b: byte, tail: string)
    ensures var s := ByteToHex(b) + tail;
      s[0] == Digits[b / 16] && s[1] == Digits[b % 16] && s[2..] == tail
  {
    var h := ByteToHex(b);
    assert (h + tail)[0] == h[0] && (h + tail)[1] == h[1];
  }

  /** Distinct values print as distinct digits. */
  lemma DigitsDistinct(i: int, j: int)
    requires 0 <= i < 16 && 0 <= j < 16
    requires Digits[i] == Digits[j]
    ensures i == j
  {
  }

  /** Two byte strings with the same encoding are equal. */
  lemma EncodeInjective(a: seq<byte>, b: seq<byte>)
    requires Encode(a) == Encode(b)
    ensures a == b
  {
    DecodeEncode(a);
    DecodeEncode(b);
  }

  /** The byte with high nibble `hi` and low nibble `lo` prints as those
      two digits. */
  lemma NibblesPrint(hi: nat, lo: nat)
    requires hi < 16 && lo < 16
    ensures ByteToHex((16 * hi + lo) as byte) == [Digits[hi], Digits[lo]]
  {
    var n := 16 * hi + lo;
    DivModSixteen(hi, lo);
    var b := n as byte;
    assert (b / 16) as int == n / 16 && (b % 16) as int == n % 16;
  }

  /** Splitting `16 * hi + lo` into nibbles gives back `hi` and `lo`. */
  lemma DivModSixteen(hi: nat, lo: nat)
    requires lo < 16
    ensures (16 * hi + lo) / 16 == hi && (16 * hi + lo) % 16 == lo
  {
  }

  lemma EncodeCons(b: byte, rest: seq<byte>)
    ensures Encode([b] + rest) == ByteToHex(b) + Encode(rest)
  {
    assert ([b] + rest)[1..] == rest;
  }

  /** Two digits read as `hi` and `lo` are the printing of the byte they
      make. */
  lemma DigitsPrintByte(s: string, hi: nat, lo: nat)
    requires |s| >= 2 && hi < 16 && lo < 16
    requires DigitValue(s[0]) == Some(hi) && DigitValue(s[1]) == Some(lo)
    ensures s[..2] == ByteToHex((16 * hi + lo) as byte)
  {
    TwoDigits(s, hi, lo);
    NibblesPrint(hi, lo);
  }

  /** A successful `Decode` of a non-empty string, as its definition reads:
      two digits and a decodable rest. */
  lemma DecodeParts(s: string, bytes: seq<byte>) returns (hi: nat, lo: nat, rest: seq<byte>)
    requires s != [] && Decode(s) == Some(bytes)
    ensures |s| >= 2 && hi < 16 && lo < 16
    ensures DigitValue(s[0]) == Some(hi) && DigitValue(s[1]) == Some(lo)
    ensures Decode(s[2..]) == Some(rest)
    ensures bytes == [(16 * hi + lo) as byte] + rest
  {
    hi, lo, rest := DigitValue(s[0]).value, DigitValue(s[1]).value, Decode(s[2..]).value;
  }

  /** The first two characters of `s`, read as digits `hi` and `lo`. */
  lemma TwoDigits(s: string, hi: nat, lo: nat)
    requires |s| >= 2 && DigitValue(s[0]) == Some(hi) && DigitValue(s[1]) == Some(lo)
    ensures s[..2] == [Digits[hi], Digits[lo]]
  {
  }

  /** Whatever decodes is the encoding of what it decodes to: the only text
      `Decode` accepts for a byte string is its `Encode`-ing. */
  lemma {:induction false} EncodeDecode(s: string, bytes: seq<byte>)
    requires Decode(s) == Some(bytes)
    ensures Encode(bytes) == s
    decreases |s|
  {
    if s != [] {
      var hi, lo, rest := DecodeParts(s, bytes);
      EncodeDecode(s[2..], rest);
      EncodeDigitsInFront(s, hi, lo, rest);
    }
  }

  /** Two digits in front of the encoding of `rest` are the encoding of the
      byte they make followed by `rest`. */
  lemma EncodeDigitsInFront(s: string, hi: nat, lo: nat, rest: seq<byte>)
    requires |s| >= 2 && hi < 16 && lo < 16
    requires DigitValue(s[0]) == Some(hi) && DigitValue(s[1]) == Some(lo)
    requires s[2..] == Encode(rest)
    ensures Encode([(16 * hi + lo) as byte] + rest) == s
  {
    DigitsPrintByte(s, hi, lo);
    PrependDigits(s, (16 * hi + lo) as byte, rest);
  }

  /** A byte's two digits in front of the encoding of `rest` are the
      encoding of the byte followed by `rest`. */
  lemma PrependDigits(s: string, b: byte, rest: seq<byte>)
    requires |s| >= 2 && s[..2] == ByteToHex(b) && s[2..] == Encode(rest)
    ensures Encode([b] + rest) == s
  {
    EncodeCons(b, rest);
    assert s == s[..2] + s[2..];
  }

  /** A text decodes to `bytes` exactly when it is the encoding of `bytes`. */
  lemma DigestTextUnique(s: string, bytes: seq<byte>)
    ensures Decode(s) == Some(bytes) <==> s == Encode(bytes)
  {
    if Decode(s) == Some(bytes) {
      EncodeDecode(s, bytes);
    }
    DecodeEncode(bytes);
  }
}

=== FILE: integrity.dfy ===
/**
  `generateHash` and `verifyIntegrity`: a record's payload is hashed again
  and the lower-case hex of the digest is compared with the digest stored
  at upload.
 */
module Integrity {
  import opened Wrappers
  import opened Hex
  import opened Evidence

  /** The browser services `generateHash` calls, both deterministic and
      neither interpreted here: `TextEncoder.encode` (the UTF-8 bytes of a
      string, total on every string) and `crypto.subtle.digest('SHA-256',
      ...)`, which is `None` where the promise is rejected or the call throws
      (as it does outside a secure context, where `crypto.subtle` is
      undefined). */
  datatype Crypto = Crypto(utf8: string -> seq<byte>, sha256: seq<byte> -> Option<seq<byte>>)

  /** The digest bytes of a text, when the digest call succeeds. */
  function Digest(c: Crypto, data: string): Option<seq<byte>> {
    c.sha256(c.utf8(data))
  }

  /** `generateHash`: fails exactly when the digest call does; otherwise two
      lower-case hex digits per digest byte, from which nothing but the
      digest can be read back. */
  function GenerateHash(c: Crypto, data: string): (h: Option<string>)
    ensures h.Some? <==> Digest(c, data).Some?
    ensures h.Some? ==> |h.value| == 2 * |Digest(c, data).value|
    ensures h.Some? ==> forall i :: 0 <= i < |h.value| ==> IsDigit(h.value[i])
    ensures h.Some? ==> Decode(h.value) == Digest(c, data)
  {
    match Digest(c, data)
    case None => None
    case Some(d) =>
      DecodeEncode(d);
      Some(Encode(d))
  }

  /** What `storage.getEvidence` produced: a failure (the promise was
      rejected), no record, or the record. */
  datatype Lookup = StoreFailure | Missing | Found(record: Record)

  /** The alert `verifyIntegrity` ends in. */
  datatype Report =
    | NotFound      // "Evidence not found"
    | Intact        // "File integrity verified"
    | Modified      // "File integrity check failed"
    | CheckError    // "Error during integrity verification"

  /** `verifyIntegrity`: intact exactly when a digest is stored and it is
      the text of the digest of the record's payload; a failure of the store
      or of the digest call, and a missing record, are reported apart from a
      mismatch. */
  function VerifyIntegrity(c: Crypto, found: Lookup): (r: Report)
    ensures r == CheckError <==>
      found.StoreFailure? || (found.Found? && Digest(c, FileDataOf(found.record)).None?)
    ensures r == NotFound <==> found.Missing?
    ensures r == Intact <==>
      found.Found? && found.record.hash.Some? && Digest(c, FileDataOf(found.record)).Some? &&
      Decode(found.record.hash.value) == Digest(c, FileDataOf(found.record))
  {
    match found
    case StoreFailure => CheckError
    case Missing => NotFound
    case Found(e) =>
      match GenerateHash(c, FileDataOf(e))
      case None => CheckError
      case Some(current) =>
        DigestTextUnique(e.hash.GetOr(""), Digest(c, FileDataOf(e)).value);
        if e.hash == Some(current) then Intact else Modified
  }

  /** A record whose stored digest was computed from its own payload checks
      out whenever the digest call succeeds. */
  lemma OwnDigestVerifies(c: Crypto, e: Record)
    requires Digest(c, FileDataOf(e)).Some?
    requires e.hash == GenerateHash(c, FileDataOf(e))
    ensures VerifyIntegrity(c, Found(e)) == Intact
  {
  }

  /** A record whose payload no longer has the digest its stored hash was
      computed from fails the check. */
  lemma ChangedPayloadIsDetected(c: Crypto, e: Record, original: string)
    requires e.hash == GenerateHash(c, original)
    requires Digest(c, FileDataOf(e)).Some? && Digest(c, FileDataOf(e)) != Digest(c, original)
    ensures VerifyIntegrity(c, Found(e)) == Modified
  {
  }

  /** A stored digest written in capitals never matches: the comparison is
      case-sensitive and `generateHash` prints lower case. */
  lemma UpperCaseDigestFails(c: Crypto, e: Record)
    requires Digest(c, FileDataOf(e)).Some?
    requires e.hash.Some? && exists i :: 0 <= i < |e.hash.value| && 'A' <= e.hash.value[i] <= 'F'
    ensures VerifyIntegrity(c, Found(e)) == Modified
  {
  }

  /** When the digest call fails, the check ends in the error alert, whatever
      digest is stored. */
  lemma DigestFailureIsError(c: Crypto, e: Record)
    requires Digest(c, FileDataOf(e)).None?
    ensures VerifyIntegrity(c, Found(e)) == CheckError
  {
  }
}

=== FILE: ordering.dfy ===
/**
  The values the evidence comparator compares, and JavaScript's `<` on
  them: numbers numerically (a timestamp or another numeric property),
  strings lexicographically.
 */
module Ordering {
  import Text

  datatype Key = Num(n: int) | Str(s: string)

  /** `a < b` on two sort values. Values of different kinds never meet in one
      sort (every record yields the same kind for a given sort field); they
      are ordered numbers first only so that the relation is total. */
  predicate KeyLess(a: Key, b: Key) {
    match a
    case Num(x) => (match b case Num(y) => x < y case Str(_) => true)
    case Str(x) => (match b case Num(_) => false case Str(y) => Text.Less(x, y))
  }

  lemma KeyLessIrreflexive(a: Key)
    ensures !KeyLess(a, a)
  {
    if a.Str? {
      Text.LessIrreflexive(a.s);
    }
  }

  lemma KeyLessTransitive(a: Key, b: Key, c: Key)
    requires KeyLess(a, b) && KeyLess(b, c)
    ensures KeyLess(a, c)
  {
    if a.Str? {
      Text.LessTransitive(a.s, b.s, c.s);
    }
  }

  lemma KeyLessTrichotomous(a: Key, b: Key)
    ensures KeyLess(a, b) || KeyLess(b, a) || a == b
  {
    if a.Str? && b.Str? {
      Text.LessTrichotomous(a.s, b.s);
    }
  }
}

=== FILE: releases.dfy ===
/**
  `GitHubReleases`: the latest release of one repository, read through a
  one-hour cache in `localStorage`. The store is a map from key to cell,
  the clock readings are parameters, and the network's answer is a `Reply`
  value; one call of `fetchLatestRelease` is one step from a store to a
  result and a new store.
 */
module Releases {
  import opened Wrappers
  import Decimal

  /** `60 * 60 * 1000` milliseconds. */
  const CacheExpiry: int := 60 * 60 * 1000

  const KeyPrefix: string := "github_release_"
  const UrlPrefix: string := "https://api.github.com/repos/"
  const UrlSuffix: string := "/releases/latest"

  /** The fields the constructor sets. */
  datatype Client = Client(owner: string, repo: string, apiUrl: string, cacheKey: string)

  /** `new GitHubReleases(owner, repo)`. */
  function NewClient(owner: string, repo: string): (c: Client)
    ensures c.owner == owner && c.repo == repo
    ensures c.cacheKey == KeyPrefix + owner + "_" + repo
    ensures c.apiUrl == UrlPrefix + owner + "/" + repo + UrlSuffix
  {
    Client(owner, repo, UrlPrefix + owner + "/" + repo + UrlSuffix, KeyPrefix + owner + "_" + repo)
  }

  /** In `a + sep + b` with no `sep` in `a`, the first `sep` is at `|a|`. */
  lemma FirstSep(sep: char, a: string, b: string)
    requires sep !in a
    ensures (a + [sep] + b)[|a|] == sep
    ensures forall i :: 0 <= i < |a| ==> (a + [sep] + b)[i] != sep
  {
    forall i | 0 <= i < |a| ensures (a + [sep] + b)[i] != sep {
      assert (a + [sep] + b)[i] == a[i];
    }
  }

  /** Splitting at the first `sep`: a text `a + sep + b` with no `sep` in
      `a` determines `a` and `b`. */
  lemma SplitAtFirst(sep: char, a1: string, b1: string, a2: string, b2: string)
    requires sep !in a1 && sep !in a2
    requires a1 + [sep] + b1 == a2 + [sep] + b2
    ensures a1 == a2 && b1 == b2
  {
    var t := a1 + [sep] + b1;
    FirstSep(sep, a1, b1);
    FirstSep(sep, a2, b2);
    assert |a1| == |a2|;
    assert a1 == t[..|a1|] == a2;
    assert b1 == t[|a1| + 1..] == b2;
  }

  /** GitHub owner names contain no underscore; for such owners different
      repositories get different cache keys. */
  lemma CacheKeyInjective(o1: string, r1: string, o2: string, r2: string)
    requires '_' !in o1 && '_' !in o2
    requires NewClient(o1, r1).cacheKey == NewClient(o2, r2).cacheKey
    ensures o1 == o2 && r1 == r2
  {
    var k1, k2 := NewClient(o1, r1).cacheKey, NewClient(o2, r2).cacheKey;
    assert k1[|KeyPrefix|..] == o1 + "_" + r1;
    assert k2[|KeyPrefix|..] == o2 + "_" + r2;
    SplitAtFirst('_', o1, r1, o2, r2);
  }

  /** Without that restriction two repositories can share a key. */
  lemma CacheKeyCollision()
    ensures NewClient("a_b", "c").cacheKey == NewClient("a", "b_c").cacheKey
  {
  }

  /** The key and the URL are built from the same owner and repository: two
      clients that fetch from the same URL (owner names contain no slash)
      read and write the same cache entry. */
  lemma SameUrlSameKey(o1: string, r1: string, o2: string, r2: string)
    requires '/' !in o1 && '/' !in o2
    requires NewClient(o1, r1).apiUrl == NewClient(o2, r2).apiUrl
    ensures NewClient(o1, r1).cacheKey == NewClient(o2, r2).cacheKey
  {
    var u1, u2 := NewClient(o1, r1).apiUrl, NewClient(o2, r2).apiUrl;
    var m1, m2 := o1 + "/" + r1, o2 + "/" + r2;
    assert u1 == UrlPrefix + m1 + UrlSuffix;
    assert u2 == UrlPrefix + m2 + UrlSuffix;
    assert u1[|UrlPrefix|..|u1| - |UrlSuffix|] == m1;
    assert u2[|UrlPrefix|..|u2| - |UrlSuffix|] == m2;
    SplitAtFirst('/', o1, r1, o2, r2);
  }

  /** Without the slash restriction one URL can belong to two keys. */
  lemma UrlCollision()
    ensures NewClient("a/b", "c").apiUrl == NewClient("a", "b/c").apiUrl
    ensures NewClient("a/b", "c").cacheKey != NewClient("a", "b/c").cacheKey
  {
    assert NewClient("a/b", "c").cacheKey[|KeyPrefix| + 1] == '/';
    assert NewClient("a", "b/c").cacheKey[|KeyPrefix| + 1] == '_';
  }

  /** A downloadable file of a release, as the page shows it. */
  datatype Asset = Asset(name: string, downloadUrl: string, size: int)

  /** The processed release: what is cached and what the page renders. */
  datatype Release = Release(
    version: string,
    name: string,
    publishedAt: string,
    body: string,
    htmlUrl: string,
    assets: seq<Asset>
  )

  /** The parts of the API's JSON answer that are read. */
  datatype ApiAsset = ApiAsset(name: string, browserDownloadUrl: string, size: int)

  datatype ApiRelease = ApiRelease(
    tagName: string,
    name: string,
    publishedAt: string,
    body: string,
    htmlUrl: string,
    assets: seq<ApiAsset>
  )

  /** `data.assets.map(asset => ({...}))`. */
  function ProcessAssets(assets: seq<ApiAsset>): (r: seq<Asset>)
    ensures |r| == |assets|
    ensures forall i :: 0 <= i < |assets| ==>
      r[i] == Asset(assets[i].name, assets[i].browserDownloadUrl, assets[i].size)
  {
    if assets == [] then []
    else [Asset(assets[0].name, assets[0].browserDownloadUrl, assets[0].size)] + ProcessAssets(assets[1..])
  }

  /** The projection of the API answer onto the processed release. */
  function ProcessRelease(d: ApiRelease): (r: Release)
    ensures r.version == d.tagName && r.name == d.name && r.publishedAt == d.publishedAt
    ensures r.body == d.body && r.htmlUrl == d.htmlUrl
    ensures |r.assets| == |d.assets|
    ensures forall i :: 0 <= i < |d.assets| ==>
      r.assets[i].name == d.assets[i].name &&
      r.assets[i].downloadUrl == d.assets[i].browserDownloadUrl &&
      r.assets[i].size == d.assets[i].size
  {
    Release(d.tagName, d.name, d.publishedAt, d.body, d.htmlUrl, ProcessAssets(d.assets))
  }

  /** What `localStorage` holds under a key:
      - `Stored`: a value that parses as `{ data, timestamp }` whose
        timestamp converts to a number: a number, or `null` (as 0), a
        boolean, a numeric string or an array that converts to one;
      - `Untimed`: one that parses with its `data` but whose `timestamp`
        converts to `NaN` (missing, a non-numeric string, an object), so
        `Date.now() - timestamp` is `NaN` and the expiry comparison is
        false;
      - `Unreadable`: one that does not parse, or parses without `data`
        (including the empty string, which `!cached` also rejects). */
  datatype Cell = Stored(data: Release, timestamp: int) | Untimed(data: Release) | Unreadable

  type Store = map<string, Cell>

  /** The entry under the client's key is served at `now`: the comparison
      `now - timestamp > cacheExpiry` is false, either because the entry is
      at most an hour old or because its timestamp converts to `NaN`. */
  predicate Fresh(c: Client, store: Store, now: int) {
    c.cacheKey in store &&
    match store[c.cacheKey]
    case Stored(_, timestamp) => now - timestamp <= CacheExpiry
    case Untimed(_) => true
    case Unreadable => false
  }

  /** `getCachedData`: the cached release when the entry exists, parses and
      is at most one hour old; `None` (null) otherwise, never an error. */
  function GetCachedData(c: Client, store: Store, now: int): (r: Option<Release>)
    ensures r.Some? <==> Fresh(c, store, now)
    ensures r.Some? ==> r.value == store[c.cacheKey].data
  {
    if c.cacheKey !in store then None
    else
      match store[c.cacheKey]
      case Unreadable => None
      case Untimed(data) => Some(data)
      case Stored(data, timestamp) =>
        var isExpired := now - timestamp > CacheExpiry;
        if isExpired then None else Some(data)
  }

  /** `setCachedData`: the release and the time written under the client's
      key when the write succeeds (`ok`); a failed write (a full quota) is
      swallowed and leaves the store as it was. No other key changes. */
  function SetCachedData(c: Client, store: Store, data: Release, now: int, ok: bool): (r: Store)
    ensures ok ==> c.cacheKey in r && r[c.cacheKey] == Stored(data, now)
    ensures ok ==> r.Keys == store.Keys + {c.cacheKey}
    ensures !ok ==> r == store
    ensures forall k :: k != c.cacheKey ==> (k in r <==> k in store)
    ensures forall k :: k != c.cacheKey && k in store ==> r[k] == store[k]
  {
    if ok then store[c.cacheKey := Stored(data, now)] else store
  }

  /** What `fetch(apiUrl)` gave: a rejected promise, or a response with its
      status and, when it parsed, the JSON body. */
  datatype Reply = NetworkFailure | Response(status: nat, body: Option<ApiRelease>)

  /** `response.ok`. */
  predicate IsOk(status: nat) {
    200 <= status <= 299
  }

  /** The errors `fetchLatestRelease` throws. The last two carry the
      browser's own error, which is not modelled. */
  datatype FetchError = NoReleases | ApiError(status: nat) | Network | BadBody

  /** The message of an error the dashboard code itself raises. */
  function Message(e: FetchError): (m: Option<string>)
    ensures m.Some? <==> e.NoReleases? || e.ApiError?
    ensures m == Some("No releases found") <==> e.NoReleases?
    ensures e.ApiError? ==> m == Some(ApiErrorPrefix + Decimal.Print(e.status))
  {
    match e
    case NoReleases => Some("No releases found")
    case ApiError(s) => Some(ApiErrorPrefix + Decimal.Print(s))
    case _ => None
  }

  const ApiErrorPrefix: string := "GitHub API error: "

  /** The message names the error: different errors of the dashboard's own
      have different messages, and the status can be read back from an API
      error's message. */
  lemma MessageIdentifiesError(e1: FetchError, e2: FetchError)
    requires Message(e1).Some? && Message(e1) == Message(e2)
    ensures e1 == e2
  {
    if e1.ApiError? && e2.ApiError? {
      var m := Message(e1).value;
      assert m[|ApiErrorPrefix|..] == Decimal.Print(e1.status);
      assert m[|ApiErrorPrefix|..] == Decimal.Print(e2.status);
      Decimal.PrintInjective(e1.status, e2.status);
    }
  }

  /** The error a non-ok response is turned into. */
  function StatusError(status: nat): (e: FetchError)
    ensures e == NoReleases <==> status == 404
    ensures e != NoReleases ==> e == ApiError(status)
  {
    if status == 404 then NoReleases else ApiError(status)
  }

  /** One call: the result, the store after it, and whether a request was
      sent. */
  datatype Step = Step(result: Result<Release, FetchError>, store: Store, requested: bool)

  /** `fetchLatestRelease`, with `now` the clock when the cache is read and
      `later` the clock when the answer is written back. */
  function FetchLatestRelease(c: Client, store: Store, now: int, reply: Reply, later: int, ok: bool): (s: Step)
    ensures !s.requested <==> Fresh(c, store, now)
    ensures !s.requested ==> s.result == Ok(store[c.cacheKey].data) && s.store == store
    ensures s.result.Err? ==> s.store == store
    ensures s.requested && reply.NetworkFailure? ==> s.result == Err(Network)
    ensures s.requested && reply.Response? && !IsOk(reply.status) ==>
      s.result == Err(if reply.status == 404 then NoReleases else ApiError(reply.status))
    ensures s.requested && reply.Response? && IsOk(reply.status) && reply.body.None? ==>
      s.result == Err(BadBody)
    ensures s.requested && reply.Response? && IsOk(reply.status) && reply.body.Some? ==>
      s.result == Ok(ProcessRelease(reply.body.value)) &&
      s.store == SetCachedData(c, store, ProcessRelease(reply.body.value), later, ok)
    ensures s.result.Ok? && s.requested ==>
      reply.Response? && IsOk(reply.status) && reply.body.Some? &&
      s.result.value == ProcessRelease(reply.body.value) &&
      s.store == SetCachedData(c, store, s.result.value, later, ok)
  {
    var cached := GetCachedData(c, store, now);
    if cached.Some? then Step(Ok(cached.value), store, false)
    else
      match reply
      case NetworkFailure => Step(Err(Network), store, true)
      case Response(status, body) =>
        if !IsOk(status) then Step(Err(StatusError(status)), store, true)
        else if body.None? then Step(Err(BadBody), store, true)
        else
          var processed := ProcessRelease(body.value);
          Step(Ok(processed), SetCachedData(c, store, processed, later, ok), true)
  }

  /** Writing and then reading within the hour gives back what was written,
      and reading after the hour gives nothing. */
  lemma CacheRoundTrip(c: Client, store: Store, data: Release, t: int, t': int)
    ensures t' - t <= CacheExpiry ==> GetCachedData(c, SetCachedData(c, store, data, t, true), t') == Some(data)
    ensures t' - t > CacheExpiry ==> GetCachedData(c, SetCachedData(c, store, data, t, true), t') == None
  {
  }

  /** Exactly one hour after the write the entry is still served; one
      millisecond later it is not. */
  lemma ExpiryBoundary(c: Client, store: Store, data: Release, t: int)
    ensures GetCachedData(c, SetCachedData(c, store, data, t, true), t + 3600000) == Some(data)
    ensures GetCachedData(c, SetCachedData(c, store, data, t, true), t + 3600001) == None
  {
    CacheRoundTrip(c, store, data, t, t + 3600000);
    CacheRoundTrip(c, store, data, t, t + 3600001);
  }

  /** A missing or unreadable entry reads as no cache. */
  lemma NoUsableEntry(c: Client, store: Store, now: int)
    requires c.cacheKey !in store || store[c.cacheKey] == Unreadable
    ensures GetCachedData(c, store, now) == None
  {
  }

  /** An entry whose timestamp converts to `NaN` never expires: it is
      served at every clock reading. */
  lemma UntimedNeverExpires(c: Client, store: Store, data: Release, now: int)
    requires c.cacheKey in store && store[c.cacheKey] == Untimed(data)
    ensures GetCachedData(c, store, now) == Some(data)
    ensures FetchLatestRelease(c, store, now, NetworkFailure, now, true).result == Ok(data)
  {
  }

  /** With a fresh cache the answer does not depend on the network at all. */
  lemma FreshCacheIgnoresNetwork(c: Client, store: Store, now: int, r1: Reply, r2: Reply, later: int, ok: bool)
    requires Fresh(c, store, now)
    ensures FetchLatestRelease(c, store, now, r1, later, ok) == FetchLatestRelease(c, store, now, r2, later, ok)
  {
  }

  /** A fetch that went to the network, succeeded and wrote the cache
      serves every further call within the hour after the write from the
      cache, with the same release and without a request. */
  lemma SecondFetchFromCache(c: Client, store: Store, now: int, reply: Reply, later: int,
                             now2: int, reply2: Reply, later2: int, ok2: bool)
    requires !Fresh(c, store, now)
    requires FetchLatestRelease(c, store, now, reply, later, true).result.Ok?
    requires now2 - later <= CacheExpiry
    ensures var s1 := FetchLatestRelease(c, store, now, reply, later, true);
      var s2 := FetchLatestRelease(c, s1.store, now2, reply2, later2, ok2);
      !s2.requested && s2.result == s1.result && s2.store == s1.store
  {
  }
}

=== FILE: scenarios.dfy ===
/**
  Worked examples: two records, searched by status and by term, and a
  payload checked against its own digest and against another's.
 */
module Scenarios {
  import opened Wrappers
  import opened Text
  import opened Evidence
  import opened Search
  import opened Integrity
  import Sorting

  /** A record with only a title, status, type and time set. */
  function Sample(title: string, status: string, kind: string, timestamp: int): Record {
    Record(0, "", "", title, "", kind, status, "", "", 0, "", "", "", None, "", timestamp)
  }

  /** 2024-01-01 and 2024-02-01, midnight UTC, in milliseconds. */
  const Alpha: Record := Sample("Alpha", "pending", "photo", 1704067200000)
  const Beta: Record := Sample("Beta", "approved", "video", 1706745600000)

  /** Filtering on status "approved" leaves only Beta. */
  lemma StatusScenario()
    ensures PerformSearch([Alpha, Beta], Query("", "approved", "", None, None, "timestamp", "asc")) == [Beta]
  {
    var q := Query("", "approved", "", None, None, "timestamp", "asc");
    assert !Keep("", q, Alpha) && Keep("", q, Beta);
    assert Filter([Alpha, Beta], "", q) == [Beta] by {
      assert [Alpha, Beta][1..] == [Beta];
      assert [Beta][1..] == [];
    }
  }

  lemma LowerTerm()
    ensures Lower("ALPHA") == "alpha"
  {
    LowerByCharacters("ALPHA", "alpha");
  }

  /** A record with only a title is searched as the title and three
      separators. */
  lemma TitleOnlyText(e: Record)
    requires e.description == "" && CaseIdOf(e) == "" && FileNameOf(e) == ""
    ensures SearchText(e) == Lower(e.title + "   ")
  {
    JoinFour(e.title, "", "", "", " ");
    assert e.title + " " + "" + " " + "" + " " + "" == e.title + "   ";
  }

  lemma AlphaText()
    ensures SearchText(Alpha) == "alpha   "
  {
    TitleOnlyText(Alpha);
    assert Alpha.title + "   " == "Alpha   ";
    LowerAlpha();
  }

  lemma LowerAlpha()
    ensures Lower("Alpha   ") == "alpha   "
  {
    LowerByCharacters("Alpha   ", "alpha   ");
  }

  lemma BetaText()
    ensures SearchText(Beta) == "beta   "
  {
    TitleOnlyText(Beta);
    assert Beta.title + "   " == "Beta   ";
    LowerBeta();
  }

  lemma LowerBeta()
    ensures Lower("Beta   ") == "beta   "
  {
    LowerByCharacters("Beta   ", "beta   ");
  }

  lemma BetaLacksAlpha()
    ensures !Includes("beta   ", "alpha")
  {
    IncludesIffOccurs("beta   ", "alpha");
    forall i | 0 <= i && i + 5 <= 7 ensures !OccursAt("beta   ", "alpha", i) {
      assert "beta   "[i + 4] == ' ';
    }
  }

  /** Alpha's search text contains "alpha". */
  lemma AlphaMatches(q: Query)
    requires q.status == "" && q.kind == "" && q.start.None? && q.end.None?
    ensures Keep("alpha", q, Alpha)
  {
    AlphaText();
    assert StartsWith(SearchText(Alpha), "alpha") by {
      assert "alpha   "[..5] == "alpha";
    }
  }

  /** Beta's search text does not. */
  lemma BetaFails(q: Query)
    ensures !Keep("alpha", q, Beta)
  {
    BetaText();
    BetaLacksAlpha();
  }

  /** Only Alpha passes the filter for the term "alpha". */
  lemma TermFilter(q: Query)
    requires q.status == "" && q.kind == "" && q.start.None? && q.end.None?
    ensures Filter([Alpha, Beta], "alpha", q) == [Alpha]
  {
    AlphaMatches(q);
    BetaFails(q);
    FilterPair(Alpha, Beta, "alpha", q);
  }

  /** Of two records, only the first passes. */
  lemma FilterPair(a: Record, b: Record, term: string, q: Query)
    requires Keep(term, q, a) && !Keep(term, q, b)
    ensures Filter([a, b], term, q) == [a]
  {
    assert [a, b][1..] == [b];
    assert [b][1..] == [];
  }

  /** Searching for "ALPHA" finds Alpha and only Alpha, whatever the case. */
  lemma TermScenario()
    ensures PerformSearch([Alpha, Beta], Query("ALPHA", "", "", None, None, "", "")) == [Alpha]
  {
    var q := Query("ALPHA", "", "", None, None, "", "");
    LowerTerm();
    TermFilter(q);
    Sorting.SortSortedIsIdentity([Alpha], KeyFor(SortField(q)), Ascending(q));
  }

  /** A payload checks out against its own digest and fails against the
      digest of a text whose digest differs. */
  lemma DigestScenario(c: Crypto)
    requires Digest(c, "hello").Some? && Digest(c, "hello") != Digest(c, "world")
    ensures VerifyIntegrity(c, Found(Sample("x", "pending", "photo", 0).(fileData := "hello", hash := GenerateHash(c, "hello")))) == Intact
    ensures VerifyIntegrity(c, Found(Sample("x", "pending", "photo", 0).(fileData := "hello", hash := GenerateHash(c, "world")))) == Modified
  {
    ChangedPayloadIsDetected(c, Sample("x", "pending", "photo", 0).(fileData := "hello", hash := GenerateHash(c, "world")), "world");
  }
}

=== FILE: search.dfy ===
/**
  `performSearch` and `clearFilters` of the dashboard: the records that pass
  every active criterion of the search form, ordered by the chosen field.
  The form's inputs are a `Query` value instead of DOM reads, and the
  result is returned instead of being stored in `filteredList`.
 */
module Search {
  import opened Wrappers
  import opened Text
  import opened Evidence
  import opened Ordering
  import opened Sorting

  /** The search form. An empty string is an empty (or absent) input. The
      date inputs arrive as the instants they denote, in milliseconds:
      `start` is `new Date(startDate)`, `end` is `new Date(endDate +
      'T23:59:59')`; `None` is an empty date input. */
  datatype Query = Query(
    term: string,
    status: string,
    kind: string,
    start: Option<int>,
    end: Option<int>,
    sortBy: string,
    sortOrder: string
  )

  /** The text the search term is looked for in: title, description, case id
      and file name, joined with single spaces and lower-cased. */
  function SearchText(e: Record): (r: string)
    ensures IsLower(r)
  {
    var joined := Join([e.title, e.description, CaseIdOf(e), FileNameOf(e)], " ");
    LowerIsLower(joined);
    Lower(joined)
  }

  /** The filter callback, criterion by criterion in the order the dashboard
      tests them; `term` is the search input already lower-cased. */
  predicate Keep(term: string, q: Query, e: Record) {
    if term != "" && !Includes(SearchText(e), term) then false
    else if q.status != "" && e.status != q.status then false
    else if q.kind != "" && e.kind != q.kind then false
    else if q.start.Some? || q.end.Some? then
      if q.start.Some? && e.timestamp < q.start.value then false
      else if q.end.Some? && e.timestamp > q.end.value then false
      else true
    else true
  }

  /** The criteria one by one, each stated on its own. */
  ghost predicate TermOk(term: string, e: Record) {
    term == "" || exists i :: OccursAt(SearchText(e), term, i)
  }

  predicate StatusOk(q: Query, e: Record) {
    q.status == "" || e.status == q.status
  }

  predicate KindOk(q: Query, e: Record) {
    q.kind == "" || e.kind == q.kind
  }

  /** The closed window `[start, end]`, unbounded on a side left empty. */
  predicate InWindow(q: Query, t: int) {
    (q.start.None? || q.start.value <= t) && (q.end.None? || t <= q.end.value)
  }

  /** A record is kept exactly when it meets every active criterion. */
  lemma KeepIffCriteria(term: string, q: Query, e: Record)
    ensures Keep(term, q, e) <==>
      TermOk(term, e) && StatusOk(q, e) && KindOk(q, e) && InWindow(q, e.timestamp)
  {
    IncludesIffOccurs(SearchText(e), term);
  }

  /** Outside the window means strictly before the start or strictly after
      the end; a record exactly on either bound is inside. */
  lemma WindowBounds(q: Query, t: int)
    ensures !InWindow(q, t) <==>
      (q.start.Some? && t < q.start.value) || (q.end.Some? && t > q.end.value)
    ensures q.start == Some(t) && (q.end.None? || t <= q.end.value) ==> InWindow(q, t)
    ensures q.end == Some(t) && (q.start.None? || q.start.value <= t) ==> InWindow(q, t)
  {
  }

  /** A term found, ignoring case, in the title is found in the search text. */
  lemma TitleHitIsFound(term: string, e: Record)
    requires Includes(Lower(e.title), Lower(term))
    ensures Includes(SearchText(e), Lower(term))
  {
    var rest := Join([e.description, CaseIdOf(e), FileNameOf(e)], " ");
    assert Join([e.title, e.description, CaseIdOf(e), FileNameOf(e)], " ") == e.title + (" " + rest);
    LowerAppend(e.title, " " + rest);
    assert Lower(e.title) + Lower(" " + rest) == [] + Lower(e.title) + Lower(" " + rest);
    IncludesInConcat([], Lower(term), Lower(" " + rest), Lower(e.title));
  }

  /** `a` is `b` with some elements left out, the rest in their order. */
  predicate IsSubsequence<T(==)>(a: seq<T>, b: seq<T>)
    decreases |b|
  {
    a == [] || (b != [] && ((a[0] == b[0] && IsSubsequence(a[1..], b[1..])) || IsSubsequence(a, b[1..])))
  }

  /** `evidenceList.filter(...)`: the kept records in their original order,
      each as often as it occurs in the input. */
  function Filter(list: seq<Record>, term: string, q: Query): (r: seq<Record>)
    ensures forall e :: multiset(r)[e] == if Keep(term, q, e) then multiset(list)[e] else 0
    ensures IsSubsequence(r, list)
  {
    if list == [] then []
    else
      var rest := Filter(list[1..], term, q);
      assert list == [list[0]] + list[1..];
      if Keep(term, q, list[0]) then
        assert ([list[0]] + rest)[1..] == rest;
        [list[0]] + rest
      else rest
  }

  /** Filtering a list whose records all pass keeps it whole. */
  lemma {:induction false} FilterKeepsPassingList(list: seq<Record>, term: string, q: Query)
    requires forall e :: e in list ==> Keep(term, q, e)
    ensures Filter(list, term, q) == list
  {
    if list != [] {
      FilterKeepsPassingList(list[1..], term, q);
      assert list == [list[0]] + list[1..];
    }
  }

  /** `(x[field] || '')` for a field the comparator has no case for: the raw
      property, numeric for numbers (a zero reads as `''`, which compares
      as 0), a string otherwise, `''` for a property the record lacks. */
  function RawValue(field: string, e: Record): Key {
    match field
    case "id" => Num(e.id)
    case "fileSize" => Num(e.fileSize)
    case "caseId" => Str(e.caseId)
    case "case_id" => Str(e.legacyCaseId)
    case "description" => Str(e.description)
    case "status" => Str(e.status)
    case "fileName" => Str(e.fileName)
    case "file_name" => Str(e.legacyFileName)
    case "mimeType" => Str(e.mimeType)
    case "fileData" => Str(e.fileData)
    case "file_data" => Str(e.legacyFileData)
    case "hash" => Str(e.hash.GetOr(""))
    case "submittedBy" => Str(e.submittedBy)
    case _ => Str("")
  }

  /** The value the comparator compares for the sort field `field`. */
  function SortKey(field: string, e: Record): Key {
    match field
    case "title" => Str(Lower(e.title))
    case "timestamp" => Num(e.timestamp)
    case "type" => Str(Lower(e.kind))
    case _ => RawValue(field, e)
  }

  function KeyFor(field: string): Record -> Key {
    e => SortKey(field, e)
  }

  /** For one sort field every record yields a value of the same kind, so
      the comparator never compares a number with a string. */
  lemma KeysOfOneKind(field: string, a: Record, b: Record)
    ensures SortKey(field, a).Num? == SortKey(field, b).Num?
  {
  }

  /** `sortBy || 'timestamp'`. */
  function SortField(q: Query): string {
    if q.sortBy == "" then "timestamp" else q.sortBy
  }

  /** `(sortOrder || 'desc') === 'asc'`: anything but "asc" sorts descending. */
  predicate Ascending(q: Query) {
    q.sortOrder == "asc"
  }

  /** Whether `performSearch` keeps `e` for the form `q`. */
  predicate Matches(q: Query, e: Record) {
    Keep(Lower(q.term), q, e)
  }

  /** `performSearch`: the matching records, each as often as in the input,
      with their keys running in the requested direction. */
  function PerformSearch(list: seq<Record>, q: Query): (r: seq<Record>)
    ensures forall e :: multiset(r)[e] == if Matches(q, e) then multiset(list)[e] else 0
    ensures SortedBy(r, KeyFor(SortField(q)), Ascending(q))
  {
    Sort(Filter(list, Lower(q.term), q), KeyFor(SortField(q)), Ascending(q))
  }

  /** Every record in the result is one of the input that meets every active
      criterion. */
  lemma SearchSound(list: seq<Record>, q: Query)
    ensures forall e :: e in PerformSearch(list, q) ==>
      e in list && TermOk(Lower(q.term), e) && StatusOk(q, e) && KindOk(q, e) && InWindow(q, e.timestamp)
  {
    var r := PerformSearch(list, q);
    forall e | e in r
      ensures e in list && TermOk(Lower(q.term), e) && StatusOk(q, e) && KindOk(q, e) && InWindow(q, e.timestamp)
    {
      assert multiset(r)[e] > 0;
      KeepIffCriteria(Lower(q.term), q, e);
    }
  }

  /** A form whose term, status, type and dates are all empty. */
  predicate NoCriteria(q: Query) {
    q.term == "" && q.status == "" && q.kind == "" && q.start.None? && q.end.None?
  }

  /** With no criterion nothing is dropped: the result is a permutation of
      the input. */
  lemma EmptyQueryKeepsAll(list: seq<Record>, q: Query)
    requires NoCriteria(q)
    ensures multiset(PerformSearch(list, q)) == multiset(list)
  {
    var r := PerformSearch(list, q);
    forall e ensures multiset(r)[e] == multiset(list)[e] {
      assert Matches(q, e);
    }
  }

  /** Searching again with the same form changes nothing. */
  lemma SearchIdempotent(list: seq<Record>, q: Query)
    ensures PerformSearch(PerformSearch(list, q), q) == PerformSearch(list, q)
  {
    var r := PerformSearch(list, q);
    forall e | e in r ensures Keep(Lower(q.term), q, e) {
      assert multiset(r)[e] > 0;
    }
    FilterKeepsPassingList(r, Lower(q.term), q);
    SortSortedIsIdentity(r, KeyFor(SortField(q)), Ascending(q));
  }

  /** Filtering depends on the form only through the filter callback. */
  lemma {:induction false} FilterSameCriteria(list: seq<Record>, term: string, q1: Query, q2: Query)
    requires forall e :: Keep(term, q1, e) == Keep(term, q2, e)
    ensures Filter(list, term, q1) == Filter(list, term, q2)
  {
    if list != [] {
      FilterSameCriteria(list[1..], term, q1, q2);
    }
  }

  /** The search ignores the case of the term. */
  lemma TermCaseInsensitive(list: seq<Record>, q: Query, term: string)
    requires Lower(term) == Lower(q.term)
    ensures PerformSearch(list, q.(term := term)) == PerformSearch(list, q)
  {
    var q' := q.(term := term);
    FilterSameCriteria(list, Lower(q.term), q', q);
    assert SortField(q') == SortField(q) && Ascending(q') == Ascending(q);
  }

  /** Sorting by timestamp orders by time: oldest first for "asc", newest
      first otherwise. */
  lemma TimestampOrder(list: seq<Record>, q: Query, i: int, j: int)
    requires SortField(q) == "timestamp"
    requires 0 <= i < j < |PerformSearch(list, q)|
    ensures var r := PerformSearch(list, q);
      if Ascending(q) then r[i].timestamp <= r[j].timestamp
      else r[i].timestamp >= r[j].timestamp
  {
    var r := PerformSearch(list, q);
    assert Precedes(Ascending(q), KeyFor(SortField(q))(r[i]), KeyFor(SortField(q))(r[j]));
  }

  /** Sorting by title or type orders by the lower-cased field, a missing one
      counting as the empty string. */
  lemma TextFieldOrder(list: seq<Record>, q: Query, i: int, j: int)
    requires SortField(q) == "title" || SortField(q) == "type"
    requires 0 <= i < j < |PerformSearch(list, q)|
    ensures var r := PerformSearch(list, q);
      var f := (e: Record) => if SortField(q) == "title" then Lower(e.title) else Lower(e.kind);
      if Ascending(q) then !Less(f(r[j]), f(r[i])) else !Less(f(r[i]), f(r[j]))
  {
    var r := PerformSearch(list, q);
    assert Precedes(Ascending(q), KeyFor(SortField(q))(r[i]), KeyFor(SortField(q))(r[j]));
  }

  /** `clearFilters`: every input emptied, sort reset to newest first. */
  function ClearFilters(): (q: Query)
    ensures NoCriteria(q) && SortField(q) == "timestamp" && !Ascending(q)
  {
    Query("", "", "", None, None, "timestamp", "desc")
  }

  /** After clearing the filters the dashboard shows every record, newest
      first. */
  lemma ClearedSearchShowsAllNewestFirst(list: seq<Record>)
    ensures multiset(PerformSearch(list, ClearFilters())) == multiset(list)
    ensures var r := PerformSearch(list, ClearFilters());
      forall i, j :: 0 <= i < j < |r| ==> r[i].timestamp >= r[j].timestamp
  {
    var q := ClearFilters();
    EmptyQueryKeepsAll(list, q);
    var r := PerformSearch(list, q);
    forall i, j | 0 <= i < j < |r| ensures r[i].timestamp >= r[j].timestamp {
      TimestampOrder(list, q, i, j);
    }
  }
}

=== FILE: sorting.dfy ===
/**
  The ordering `Array.prototype.sort` produces from the dashboard's
  comparator. In ascending order the comparator answers "after" exactly
  when `a > b` and "before" otherwise; in descending order "after" exactly
  when `a < b`. It never answers "equal", so the order of records with equal
  keys is left to the engine: every permutation whose keys run in the
  requested direction is a possible outcome. `Sort` computes one of them
  (the one that keeps equal keys in input order).
 */
module Sorting {
  import opened Ordering

  /** A record with key `x` may stand before one with key `y`. */
  predicate Precedes(asc: bool, x: Key, y: Key) {
    if asc then !KeyLess(y, x) else !KeyLess(x, y)
  }

  lemma PrecedesTotal(asc: bool, x: Key, y: Key)
    ensures Precedes(asc, x, y) || Precedes(asc, y, x)
  {
    KeyLessTrichotomous(x, y);
    KeyLessIrreflexive(x);
    if KeyLess(x, y) && KeyLess(y, x) {
      KeyLessTransitive(x, y, x);
    }
  }

  lemma PrecedesTransitive(asc: bool, x: Key, y: Key, z: Key)
    requires Precedes(asc, x, y) && Precedes(asc, y, z)
    ensures Precedes(asc, x, z)
  {
    KeyLessTrichotomous(x, y);
    KeyLessTrichotomous(y, z);
    if asc && KeyLess(z, x) {
      if KeyLess(x, y) { KeyLessTransitive(z, x, y); }
    } else if !asc && KeyLess(x, z) {
      if KeyLess(z, y) { KeyLessTransitive(x, z, y); }
    }
  }

  /** Two keys that may each stand before the other are equal. */
  lemma PrecedesAntisymmetric(asc: bool, x: Key, y: Key)
    requires Precedes(asc, x, y) && Precedes(asc, y, x)
    ensures x == y
  {
    KeyLessTrichotomous(x, y);
  }

  /** The keys of `s` run in the requested direction. */
  ghost predicate SortedBy<T>(s: seq<T>, key: T -> Key, asc: bool) {
    forall i, j :: 0 <= i < j < |s| ==> Precedes(asc, key(s[i]), key(s[j]))
  }

  /** Insert `x` into the sorted `s` in front of the first element it may
      precede. */
  function Insert<T>(x: T, s: seq<T>, key: T -> Key, asc: bool): (r: seq<T>)
    requires SortedBy(s, key, asc)
    ensures multiset(r) == multiset(s) + multiset{x}
    ensures SortedBy(r, key, asc)
  {
    if s == [] then [x]
    else if Precedes(asc, key(x), key(s[0])) then
      FrontPrecedesAll(x, s, key, asc);
      [x] + s
    else
      PrecedesTotal(asc, key(x), key(s[0]));
      var rest := Insert(x, s[1..], key, asc);
      HeadPrecedesInserted(x, s, rest, key, asc);
      assert s == [s[0]] + s[1..];
      [s[0]] + rest
  }

  /** `x` before the head of a sorted sequence may stand before all of it. */
  lemma FrontPrecedesAll<T>(x: T, s: seq<T>, key: T -> Key, asc: bool)
    requires s != [] && SortedBy(s, key, asc)
    requires Precedes(asc, key(x), key(s[0]))
    ensures SortedBy([x] + s, key, asc)
  {
    var r := [x] + s;
    forall i, j | 0 <= i < j < |r|
      ensures Precedes(asc, key(r[i]), key(r[j]))
    {
      if i == 0 && j > 1 {
        PrecedesTransitive(asc, key(x), key(s[0]), key(s[j - 1]));
      }
    }
  }

  /** The head of a sorted `s` may stand before everything the insertion of
      a later `x` into the tail produced. */
  lemma HeadPrecedesInserted<T>(x: T, s: seq<T>, rest: seq<T>, key: T -> Key, asc: bool)
    requires s != [] && SortedBy(s, key, asc)
    requires Precedes(asc, key(s[0]), key(x))
    requires SortedBy(rest, key, asc)
    requires multiset(rest) == multiset(s[1..]) + multiset{x}
    ensures SortedBy([s[0]] + rest, key, asc)
  {
    var r := [s[0]] + rest;
    forall i, j | 0 <= i < j < |r|
      ensures Precedes(asc, key(r[i]), key(r[j]))
    {
      if i == 0 {
        var e := rest[j - 1];
        assert e in multiset(rest);
        if e != x {
          assert e in multiset(s[1..]);
          var k :| 0 <= k < |s[1..]| && s[1..][k] == e;
          assert s[k + 1] == e;
        }
      }
    }
  }

  /** Insertion sort: a permutation of `s` whose keys run in the requested
      direction. */
  function Sort<T>(s: seq<T>, key: T -> Key, asc: bool): (r: seq<T>)
    ensures multiset(r) == multiset(s)
    ensures SortedBy(r, key, asc)
  {
    if s == [] then []
    else
      assert s == [s[0]] + s[1..];
      Insert(s[0], Sort(s[1..], key, asc), key, asc)
  }

  /** Sorting an already sorted sequence leaves it as it is. */
  lemma {:induction false} SortSortedIsIdentity<T>(s: seq<T>, key: T -> Key, asc: bool)
    requires SortedBy(s, key, asc)
    ensures Sort(s, key, asc) == s
  {
    if s != [] {
      assert SortedBy(s[1..], key, asc);
      SortSortedIsIdentity(s[1..], key, asc);
      if |s| > 1 {
        assert Precedes(asc, key(s[0]), key(s[1]));
      }
      assert s == [s[0]] + s[1..];
    }
  }
}

=== FILE: text.dfy ===
/**
  String operations the browser code relies on: `toLowerCase`, `includes`,
  `startsWith`, `Array.prototype.join` and the relational `<` on strings.
 */
module Text {

  /** Characters `toLowerCase` changes in this model: ASCII `A`-`Z` and the
      Latin-1 capitals U+00C0..U+00DE except the multiplication sign U+00D7. */
  predicate IsUpper(c: char) {
    ('A' <= c <= 'Z') || ('À' <= c <= 'Þ' && c != '×')
  }

  /** `toLowerCase` of a single character: every capital above lies 32 code
      points below its small letter. */
  function LowerChar(c: char): (r: char)
    ensures !IsUpper(r)
    ensures IsUpper(c) || r == c
  {
    if IsUpper(c) then (c as int + 32) as char else c
  }

  /** `String.prototype.toLowerCase`, character by character. */
  function Lower(s: string): (r: string)
    ensures |r| == |s|
  {
    if s == [] then [] else [LowerChar(s[0])] + Lower(s[1..])
  }

  /** No character of `s` is a capital. */
  predicate IsLower(s: string) {
    forall i :: 0 <= i < |s| ==> !IsUpper(s[i])
  }

  lemma {:induction false} LowerIndex(s: string, i: int)
    requires 0 <= i < |s|
    ensures Lower(s)[i] == LowerChar(s[i])
  {
    if i > 0 {
      LowerIndex(s[1..], i - 1);
    }
  }

  /** Lower-casing yields a string without capitals and changes nothing
      that had none. */
  lemma {:induction false} LowerIsLower(s: string)
    ensures IsLower(Lower(s))
    ensures IsLower(s) ==> Lower(s) == s
  {
    forall i | 0 <= i < |s|
      ensures !IsUpper(Lower(s)[i])
    {
      LowerIndex(s, i);
    }
    if IsLower(s) && s != [] {
      assert IsLower(s[1..]) by {
        forall i | 0 <= i < |s[1..]|
          ensures !IsUpper(s[1..][i])
        {
          assert s[1..][i] == s[i + 1];
        }
      }
      LowerIsLower(s[1..]);
    }
  }

  /** `toLowerCase` is idempotent. */
  lemma LowerIdempotent(s: string)
    ensures Lower(Lower(s)) == Lower(s)
  {
    LowerIsLower(s);
    LowerIsLower(Lower(s));
  }

  /** Two strings agree when one is the other lower-cased character by
      character. */
  lemma LowerByCharacters(s: string, t: string)
    requires |s| == |t|
    requires forall i :: 0 <= i < |s| ==> LowerChar(s[i]) == t[i]
    ensures Lower(s) == t
  {
    forall i | 0 <= i < |s| ensures Lower(s)[i] == t[i] {
      LowerIndex(s, i);
    }
  }

  /** `toLowerCase` distributes over concatenation. */
  lemma {:induction false} LowerAppend(a: string, b: string)
    ensures Lower(a + b) == Lower(a) + Lower(b)
  {
    if a == [] {
      assert a + b == b;
    } else {
      assert (a + b)[0] == a[0];
      assert (a + b)[1..] == a[1..] + b;
      LowerAppend(a[1..], b);
    }
  }

  /** `s.startsWith(p)`. */
  predicate StartsWith(s: string, p: string) {
    |p| <= |s| && s[..|p|] == p
  }

  /** `s.includes(sub)` as the scan the browser performs: a match at the
      front, or one further along. */
  predicate Includes(s: string, sub: string)
    decreases |s|
  {
    StartsWith(s, sub) || (s != [] && Includes(s[1..], sub))
  }

  /** `sub` occurs in `s` at offset `i`. */
  predicate OccursAt(s: string, sub: string, i: int) {
    0 <= i && i + |sub| <= |s| && s[i..i + |sub|] == sub
  }

  /** The scan finds `sub` exactly when `sub` occurs somewhere in `s`. */
  lemma {:induction false} IncludesIffOccurs(s: string, sub: string)
    ensures Includes(s, sub) <==> exists i :: OccursAt(s, sub, i)
    decreases |s|
  {
    if StartsWith(s, sub) {
      assert OccursAt(s, sub, 0);
    } else if s == [] {
    } else {
      IncludesIffOccurs(s[1..], sub);
      if exists i :: OccursAt(s, sub, i) {
        var i :| OccursAt(s, sub, i);
        if i > 0 {
          assert s[1..][i - 1..i - 1 + |sub|] == s[i..i + |sub|];
          assert OccursAt(s[1..], sub, i - 1);
        }
      }
      if exists j :: OccursAt(s[1..], sub, j) {
        var j :| OccursAt(s[1..], sub, j);
        assert s[1..][j..j + |sub|] == s[j + 1..j + 1 + |sub|];
        assert OccursAt(s, sub, j + 1);
      }
    }
  }

  /** A string included in a part of a concatenation is included in the whole. */
  lemma IncludesInConcat(a: string, sub: string, b: string, s: string)
    requires Includes(s, sub)
    ensures Includes(a + s + b, sub)
  {
    IncludesIffOccurs(s, sub);
    var i :| OccursAt(s, sub, i);
    assert (a + s + b)[|a| + i..|a| + i + |sub|] == s[i..i + |sub|];
    assert OccursAt(a + s + b, sub, |a| + i);
    IncludesIffOccurs(a + s + b, sub);
  }

  /** `parts.join(sep)`. */
  function Join(parts: seq<string>, sep: string): (r: string)
    ensures |parts| == 1 ==> r == parts[0]
  {
    if |parts| == 0 then ""
    else if |parts| == 1 then parts[0]
    else parts[0] + sep + Join(parts[1..], sep)
  }

  /** Joining four parts. */
  lemma JoinFour(a: string, b: string, c: string, d: string, sep: string)
    ensures Join([a, b, c, d], sep) == a + sep + b + sep + c + sep + d
  {
    assert [c, d][1..] == [d];
    assert Join([c, d], sep) == c + sep + d;
    assert [b, c, d][1..] == [c, d];
    assert Join([b, c, d], sep) == b + sep + (c + sep + d);
    assert [a, b, c, d][1..] == [b, c, d];
    assert Join([a, b, c, d], sep) == a + sep + (b + sep + (c + sep + d));
  }

  /** JavaScript `a < b` on strings: lexicographic order on characters,
      with a proper prefix below the longer string. */
  predicate Less(a: string, b: string)
    decreases |a|
  {
    if a == [] then b != []
    else b != [] && (a[0] < b[0] || (a[0] == b[0] && Less(a[1..], b[1..])))
  }

  /** `Less` is a strict total order. */
  lemma {:induction false} LessIrreflexive(a: string)
    ensures !Less(a, a)
    decreases |a|
  {
    if a != [] {
      LessIrreflexive(a[1..]);
    }
  }

  lemma {:induction false} LessTransitive(a: string, b: string, c: string)
    requires Less(a, b) && Less(b, c)
    ensures Less(a, c)
    decreases |a|
  {
    if a != [] && a[0] == b[0] && b[0] == c[0] {
      LessTransitive(a[1..], b[1..], c[1..]);
    }
  }

  lemma {:induction false} LessTrichotomous(a: string, b: string)
    ensures Less(a, b) || Less(b, a) || a == b
    decreases |a|
  {
    if a != [] && b != [] && a[0] == b[0] {
      LessTrichotomous(a[1..], b[1..]);
      if a[1..] == b[1..] {
        assert a == [a[0]] + a[1..] && b == [b[0]] + b[1..];
      }
    }
  }
}

=== FILE: upload.dfy ===
/**
  `validateFile`, the check an upload passes before it is hashed and
  stored: a size cap of 50 MiB and a whitelist of MIME-type prefixes.
 */
module Upload {
  import opened Text

  /** `50 * 1024 * 1024` bytes. */
  const MaxSize: int := 50 * 1024 * 1024

  /** The allowed prefixes, in the order they are tried. */
  const AllowedTypes: seq<string> := ["image/", "video/", "audio/", "application/pdf", "text/"]

  /** The outcome of validation; a rejection carries the alert shown. */
  datatype Verdict = Accepted | TooLarge | TypeNotAllowed {
    function Alert(): string
      requires !Accepted?
    {
      if TooLarge? then "File size exceeds 50MB limit" else "File type not allowed"
    }
  }

  /** `allowedTypes.some(type => mimeType.startsWith(type))`. */
  function SomePrefix(prefixes: seq<string>, mimeType: string): (r: bool)
    ensures r <==> exists i :: 0 <= i < |prefixes| && StartsWith(mimeType, prefixes[i])
  {
    if prefixes == [] then false
    else StartsWith(mimeType, prefixes[0]) || SomePrefix(prefixes[1..], mimeType)
  }

  /** The size is tested first, so an oversized file of a forbidden type
      reports its size. */
  function ValidateFile(size: int, mimeType: string): (v: Verdict)
    ensures v == Accepted <==>
      size <= MaxSize && exists p :: p in AllowedTypes && StartsWith(mimeType, p)
    ensures v == TooLarge <==> size > MaxSize
    ensures v != Accepted ==>
      v.Alert() == if size > MaxSize then "File size exceeds 50MB limit" else "File type not allowed"
  {
    if size > MaxSize then TooLarge
    else if !SomePrefix(AllowedTypes, mimeType) then TypeNotAllowed
    else Accepted
  }

  /** The cap is inclusive: 52428800 bytes pass, one more does not. */
  lemma SizeBoundary()
    ensures ValidateFile(52428800, "image/png") == Accepted
    ensures ValidateFile(52428801, "image/png") == TooLarge
  {
    assert StartsWith("image/png", AllowedTypes[0]);
  }

  /** A string that differs from `p` within `p`'s length does not start with `p`. */
  lemma DiffersAt(s: string, p: string, k: int)
    requires 0 <= k < |p| && k < |s| && s[k] != p[k]
    ensures !StartsWith(s, p)
  {
    if |p| <= |s| {
      assert s[..|p|][k] == s[k];
    }
  }

  /** The type test is a case-sensitive prefix test: a whole allowed type
      passes, another subtype of an allowed top-level name or a capitalised
      type does not. */
  lemma PrefixMatching()
    ensures ValidateFile(1, "application/pdf") == Accepted
    ensures ValidateFile(1, "application/json") == TypeNotAllowed
    ensures ValidateFile(1, "IMAGE/PNG") == TypeNotAllowed
  {
    assert StartsWith("application/pdf", AllowedTypes[3]);
    DiffersAt("application/json", AllowedTypes[0], 0);
    DiffersAt("application/json", AllowedTypes[1], 0);
    DiffersAt("application/json", AllowedTypes[2], 1);
    DiffersAt("application/json", AllowedTypes[3], 12);
    DiffersAt("application/json", AllowedTypes[4], 0);
    DiffersAt("IMAGE/PNG", AllowedTypes[0], 0);
    DiffersAt("IMAGE/PNG", AllowedTypes[1], 0);
    DiffersAt("IMAGE/PNG", AllowedTypes[2], 0);
    DiffersAt("IMAGE/PNG", AllowedTypes[3], 0);
    DiffersAt("IMAGE/PNG", AllowedTypes[4], 0);
  }
}

=== FILE: wrappers.dfy ===
/** Option and Result types shared by the other modules. */
module Wrappers {

  /** A value that may be absent (JavaScript `null`/`undefined`). */
  datatype Option<+T> = None | Some(value: T) {

    /** The wrapped value, or `default` when absent (JavaScript `x || default`). */
    function GetOr(default: T): T {
      match this
      case Some(v) => v
      case None => default
    }
  }

  /** Either a value or the error that replaced it (a thrown exception). */
  datatype Result<+R, +E> = Ok(value: R) | Err(error: E)
}
